=== FILE: README.md ===
# FrankenPHP worker request handler

This project models the request handler of a long-lived FrankenPHP worker: the closure passed to `frankenphp_handle_request` in `src/config/frankenphp/worker.php`. For each request the handler:

- reads `REQUEST_URI`, `SCRIPT_NAME` and `DOCUMENT_ROOT` from `$_SERVER`, with defaults;
- takes the path part of the request target and strips a leading script name;
- resolves the file to run in a fixed order: directory index, then existing regular file, then the front controller `index.php`;
- refuses targets whose canonical path does not begin with the canonical document root;
- runs only files whose extension is `php`, inside an output buffer;
- turns any `Throwable` into a 500 response;
- in its `finally` block, empties the per-request superglobals and discards every open output buffer.

The modules are:

- `PhpStrings` (`php_strings.dfy`): the PHP string builtins the handler relies on. These are truthiness, `strpos`, `rtrim`, the `pathinfo` extension, `str_replace` with an empty replacement, integer-to-string conversion and the path part of `parse_url`. `Strpos`, `RTrimSlashes`, `AfterLast`, `DecimalString` and `UrlPath` state their properties in their own contracts. For the others the properties are lemmas: `ExtensionIsPhp` for the extension, `RemoveAllAbsent`, `RemoveAllFirst`, `RemoveAllEmptySearch` and `RemoveAllLeading` for `str_replace`, and `DecimalRoundTrip` for the conversion.
- `Routing` (`routing.dfy`): the file system as a value, the `$_SERVER` defaults, the script-name strip, target resolution (lines 51-67) and the containment test (lines 70-73).
- `Runtime` (`runtime.dfy`): the runtime state as a value. This covers the response status, whether headers were sent, the bytes sent, the output-buffer stack, the superglobals, the included files and the error log. It also holds specification functions for `echo`, `http_response_code`, the `ob_*` calls, the included script, and the try, catch and finally blocks, with `Handle` as the whole closure.
- `HandlerProperties` (`handler_properties.dfy`): lemmas about `Handle`.
- `Worker` (`worker.dfy`): class `PhpRuntime`, whose fields are that state. Its methods change those fields statement by statement, as the closure does, and each is proved to leave exactly the state the matching `Runtime` function describes.

Two behaviours are modelled as the code has them, not as one might expect:

- Containment is a string prefix test on the canonical paths. A file under `/var/www/html/public2` passes for the root `/var/www/html/public` (`Routing.SiblingDirectoryPasses`).
- A script that throws while the handler's buffer is open (proved for scripts that open and close no buffers of their own) has "Internal Server Error" echoed into that buffer, and the drain loop then discards it. The status is still 500, but the text never reaches the client (`HandlerProperties.ErrorTextLostInOpenBuffer`).

Conventions of the model:

- The response status can change only while headers are not sent, as `http_response_code` behaves. Headers are sent by the first non-empty write that reaches the client with no buffer open.
- The included script is a `Runtime.Script`: a list of steps (`echo`, `ob_start`, `ob_clean`, `ob_end_clean`, `ob_end_flush`, `http_response_code` and assignments to superglobals) and an optional `Throwable` it throws at the end.
- `is_dir`, `file_exists`, `is_file` and `realpath` read a `Routing.FileSystem` value. It holds sets of directories, regular files and other entries, and a partial map giving canonical paths. A well-formed file system (`Valid`) gives a canonical path only to a path that exists, and that canonical path exists too, as `realpath` does for every non-empty path. PHP's `realpath("")` is an exception: it gives the working directory although `file_exists("")` is false.
- `getenv` reads an environment map passed in.
- `error_log` appends its line to a `log` sequence in the state.

## Model

| member | source | states |
|---|---|---|
| PhpStrings.Strpos | src/config/frankenphp/worker.php:46 | the result is the first index at which the needle occurs, or None when it occurs nowhere; it is 0 exactly when the needle is a prefix |
| PhpStrings.RTrimSlashes | src/config/frankenphp/worker.php:55 | the result is a prefix of the input, does not end in '/', and everything removed is '/' |
| PhpStrings.AfterLast | src/config/frankenphp/worker.php:80 | the result is a suffix that contains no separator and is preceded by one, or is the whole input |
| PhpStrings.ExtensionIsPhp | src/config/frankenphp/worker.php:80 | the extension gate passes exactly when the path, without its trailing slashes, ends in ".php" |
| PhpStrings.RemoveAllAbsent | src/config/frankenphp/worker.php:83 | a subject in which the search string does not occur is left unchanged |
| PhpStrings.AbsentCharNoOccurrence | src/config/frankenphp/worker.php:83 | a needle holding a character the haystack lacks is not found |
| PhpStrings.RemoveAllFirst | src/config/frankenphp/worker.php:83 | the first occurrence, wherever it lies, is removed, the text before it kept and the scan resumed after it; with RemoveAllAbsent and RemoveAllEmptySearch this fixes `str_replace` with an empty replacement on every input |
| PhpStrings.RemoveAllKeepsPrefix | src/config/frankenphp/worker.php:83 | characters at which no occurrence of the search string starts are kept, in order, in front of what `str_replace` leaves of the rest |
| PhpStrings.RemoveAllEmptySearch | src/config/frankenphp/worker.php:83 | an empty search string leaves the subject unchanged, as `str_replace` does for a document root of "" |
| PhpStrings.RemoveAllLeading | src/config/frankenphp/worker.php:83 | an occurrence at the front is removed and the scan continues after it |
| PhpStrings.DecimalString | src/config/frankenphp/worker.php:110 | the line number converts to a non-empty string of decimal digits with no leading zero |
| PhpStrings.DecimalRoundTrip | src/config/frankenphp/worker.php:110 | reading those digits back gives the line number |
| PhpStrings.UrlPath | src/config/frankenphp/worker.php:42-43 | the path part is the longest prefix free of '?' and '#', and is missing exactly when the target starts with '?' or '#' |
| PhpStrings.UrlPathPlain | src/config/frankenphp/worker.php:42-43 | a target with no query and no fragment is all path |
| Routing.DefaultsApply | src/config/frankenphp/worker.php:37-43 | missing `$_SERVER` entries give the path "/", the script name "" and the root /var/www/html/public |
| Routing.MissingPathIsRoot | src/config/frankenphp/worker.php:42-43 | a target that begins with its query or fragment routes as "/" |
| Routing.StripScriptName | src/config/frankenphp/worker.php:46-48 | a truthy script name that starts the path is cut off it; otherwise the path is unchanged |
| Routing.ResolveTarget | src/config/frankenphp/worker.php:51-67 | the target is the candidate, its directory index or the front controller; a replacement always exists; with a front controller present the target is a regular file or the front controller |
| Routing.DirectoryIndexWins | src/config/frankenphp/worker.php:54-59 | a directory whose index.php is a regular file resolves to that index |
| Routing.ExistingFileKept | src/config/frankenphp/worker.php:62 | an existing regular file is run as named |
| Routing.FrontControllerFallback | src/config/frankenphp/worker.php:62-67 | with no regular file and no directory index, an existing front controller takes the request |
| Routing.CandidateKept | src/config/frankenphp/worker.php:51-67 | without a directory index or a front controller the candidate is kept as it is |
| Routing.UnresolvedCandidates | src/config/frankenphp/worker.php:51-67 | the kept candidate can be a directory, or a path that does not exist |
| Routing.RootRequestRunsIndex | src/config/frankenphp/worker.php:53-58 | a request for "/" runs the root's index.php through the directory step |
| Routing.ContainedIsCanonicalPrefix | src/config/frankenphp/worker.php:70-73 | the containment test passes exactly when both paths canonicalise to truthy strings and the canonical root is a string prefix of the canonical file |
| Routing.SiblingDirectoryPasses | src/config/frankenphp/worker.php:73 | on a well-formed file system, a file whose canonical path lies in the sibling directory public2 passes for the root public |
| Runtime.WriteExtendsPending | src/config/frankenphp/worker.php:99 | an echo appends its text to the output, buffered or sent |
| Runtime.EndCleanDropsTop | src/config/frankenphp/worker.php:97 | closing the top buffer without flushing drops exactly its contents |
| Runtime.EndFlushKeepsPending | src/config/frankenphp/worker.php:94 | closing the top buffer with a flush keeps all output |
| Runtime.WriteJoin | src/config/frankenphp/worker.php:114-122 | two echoes in a row write the same as one echo of their concatenation |
| Runtime.RespondExtends | src/config/frankenphp/worker.php:74-75 | a status request followed by an echo never takes back what the client already has |
| Runtime.WriteExtends | src/config/frankenphp/worker.php:99 | an echo never takes back what the client already has |
| Runtime.ExecKeeps | src/config/frankenphp/worker.php:94 | the included script changes neither the included list nor the log, and never takes back sent output |
| Runtime.ExecKeepsUntouched | src/config/frankenphp/worker.php:94 | a script that assigns no session or cookie entry leaves those superglobals as they were |
| Runtime.ExecPlainBuffered | src/config/frankenphp/worker.php:91-94 | with a buffer open, a script of plain steps sends nothing; its output collects in the top buffer and its status is the last code it set |
| Runtime.ErrorBodyGenericIffNoDebug | src/config/frankenphp/worker.php:114-123 | the catch block echoes only "Internal Server Error" exactly when debugging is off |
| Runtime.Handle | src/config/frankenphp/worker.php:34-143 | after any request, GET, POST, REQUEST and FILES are empty, SESSION and COOKIE are set, and no output buffer is open |
| HandlerProperties.RejectedTargetIsNotFound | src/config/frankenphp/worker.php:70-77 | a target that fails containment gets status 404 and "404 Not Found" (when headers and buffers allow), and nothing is included or logged |
| HandlerProperties.MissingTargetIsNotFound | src/config/frankenphp/worker.php:62-77 | on a well-formed file system a target that does not exist gets status 404 and "404 Not Found" (when headers and buffers allow), and nothing is included or logged |
| HandlerProperties.MissingFileIsNotFound | src/config/frankenphp/worker.php:51-77 | a request for a missing path under a root without a front controller gets 404 and "404 Not Found", and nothing is included |
| HandlerProperties.NonPhpTargetIsNotFound | src/config/frankenphp/worker.php:80-106 | a contained target without the php extension gets status 404 and "File not found or not a PHP file", and nothing is included or logged |
| HandlerProperties.IncludedIffGatesPass | src/config/frankenphp/worker.php:70-94 | the target is included exactly when both gates pass, and one log line is added exactly when the included script throws |
| HandlerProperties.SentOutputStays | src/config/frankenphp/worker.php:34-143 | output already sent to the client and a status fixed by sent headers are never taken back |
| HandlerProperties.TryExtends | src/config/frankenphp/worker.php:35-107 | the try block alone never takes back output the client has |
| HandlerProperties.PreparedExtends | src/config/frankenphp/worker.php:82-91 | setting up the include takes back no output the client has |
| HandlerProperties.IncludeExtends | src/config/frankenphp/worker.php:94-100 | running the script and delivering its buffer never take back output the client has |
| HandlerProperties.ThrowIsServerError | src/config/frankenphp/worker.php:108-123 | a throw logs one line and sets status 500; the catch text reaches the client only if no buffer is open |
| HandlerProperties.ErrorTextLostInOpenBuffer | src/config/frankenphp/worker.php:91-141 | on a fresh request, a script of plain steps (echoes, response codes, assignments; no buffer calls) that throws leaves status 500 and an unchanged body, whatever it echoed or set before |
| HandlerProperties.NoDebugDetailWhenOff | src/config/frankenphp/worker.php:113-123 | with debugging off, only "Internal Server Error" reaches the client |
| HandlerProperties.PlainScriptDelivered | src/config/frankenphp/worker.php:91-100 | on a fresh request a returning script of plain steps has all it echoed delivered in order, with the status it chose |
| HandlerProperties.RemoveAllRepeatedRoot | src/config/frankenphp/worker.php:83 | removing "/app" from "/app/app/index.php" leaves "/index.php" |
| HandlerProperties.PlainRunDelivered | src/config/frankenphp/worker.php:97-100 | ob_get_clean and the echo that follows carry the buffer's contents to the client |
| HandlerProperties.OutputLostWhenBufferedOnEntry | src/config/frankenphp/worker.php:86-141 | with a buffer open on entry, the script's output goes to that buffer and the drain discards it |
| HandlerProperties.SessionAndCookieKept | src/config/frankenphp/worker.php:135-136 | SESSION and COOKIE keep a value they had and become empty arrays only when unset |
| HandlerProperties.PhpSelfOfFrontController | src/config/frankenphp/worker.php:82-83 | for the front controller, SCRIPT_FILENAME is the full path and PHP_SELF is "/index.php" |
| HandlerProperties.PhpSelfRemovesEveryOccurrence | src/config/frankenphp/worker.php:83 | PHP_SELF loses every occurrence of the root, not only the leading one |
| HandlerProperties.PlainFileTarget | src/config/frankenphp/worker.php:37-67 | a plain path naming an existing regular file under the default root is run as named |
| HandlerProperties.TraversalTarget | src/config/frankenphp/worker.php:51-67 | "/../../../../etc/passwd" resolves to the file as named |
| HandlerProperties.TraversalEscapes | src/config/frankenphp/worker.php:70-73 | its canonical path, /etc/passwd (four ".." steps from /var/www/html/public reach "/"), fails the containment test |
| HandlerProperties.TraversalRejected | src/config/frankenphp/worker.php:70-77 | that request gets 404 and "404 Not Found", and nothing is included |
| Worker.PhpRuntime.constructor | src/config/frankenphp/worker.php:34 | a request starts with status 200, nothing sent, no buffer open and its own superglobals |
| Worker.PhpRuntime.ObGetLevel | src/config/frankenphp/worker.php:86 | the level is the depth of the buffer stack |
| Worker.PhpRuntime.Echo | src/config/frankenphp/worker.php:99 | echo writes to the top buffer, or sends to the client when none is open |
| Worker.PhpRuntime.HttpResponseCode | src/config/frankenphp/worker.php:74 | the status changes only while headers are not sent, and a code of 0 changes nothing |
| Worker.PhpRuntime.ObStart | src/config/frankenphp/worker.php:91 | a new empty buffer goes on top of the stack |
| Worker.PhpRuntime.ObClean | src/config/frankenphp/worker.php:87 | the top buffer is emptied; the call fails when no buffer is open |
| Worker.PhpRuntime.ObEndClean | src/config/frankenphp/worker.php:140 | the top buffer is dropped; the call fails when no buffer is open |
| Worker.PhpRuntime.ObGetClean | src/config/frankenphp/worker.php:97 | the top buffer's contents are returned and the buffer is dropped; false when no buffer is open |
| Worker.PhpRuntime.Include | src/config/frankenphp/worker.php:94 | the file is recorded as included, its steps run in order, and its throw is returned |
| Worker.PhpRuntime.Route | src/config/frankenphp/worker.php:37-67 | the document root and the file path computed step by step equal the specified root and target |
| Worker.PhpRuntime.Refuse | src/config/frankenphp/worker.php:74-75 | status 404 is requested and the refusal text echoed |
| Worker.PhpRuntime.Prepare | src/config/frankenphp/worker.php:82-91 | the server entries are set, an open buffer is cleaned and a fresh buffer started |
| Worker.PhpRuntime.Flush | src/config/frankenphp/worker.php:97-100 | the script's buffer is closed and its contents echoed |
| Worker.PhpRuntime.Dispatch | src/config/frankenphp/worker.php:35-107 | the try block leaves the state, and returns the throw, that the try specification gives |
| Worker.PhpRuntime.Recover | src/config/frankenphp/worker.php:108-123 | the catch block logs, sets 500 and echoes the generic text, plus the details when debugging |
| Worker.PhpRuntime.ResetGlobals | src/config/frankenphp/worker.php:131-136 | the request superglobals are emptied, and SESSION and COOKIE are kept or set empty |
| Worker.PhpRuntime.DrainBuffers | src/config/frankenphp/worker.php:139-141 | the loop ends with no buffer open and everything else unchanged |
| Worker.PhpRuntime.Cleanup | src/config/frankenphp/worker.php:124-142 | the finally block leaves the state its specification gives |
| Worker.PhpRuntime.HandleRequest | src/config/frankenphp/worker.php:34-143 | one request leaves exactly the state `Runtime.Handle` gives: request superglobals empty, no buffer open |

## Left out

- Runtime configuration (lines 19-31: memory limit, error reporting, display of errors, error-log path, time zone) consists of `ini_set`-style calls with no logic.
- The fallback definition of `frankenphp_handle_request` (lines 12-17) and the worker's process lifetime are left out. One invocation of the handler is modelled.
- `gc_collect_cycles` (lines 126-128) is a memory-management call with no visible effect on the state modelled.
- The file written by `error_log` and the text of `getTraceAsString` are left out. The log is a sequence of lines, and the trace is a string carried by the `Throwable`.
- Notices and warnings that PHP itself prints with `display_errors` on (for example from `ob_clean` failing) are not part of the output model.
- Output buffers that cannot be removed are left out. With one open, the drain loop of lines 139-141 would never end.
- PhpStrings.UrlPath: `parse_url` is reduced to "the text before the first '?' or '#'". Scheme and authority forms, and targets `parse_url` rejects, are not modelled.
- Routing.FileSystem: the real file system, symbolic links and how `realpath` resolves `..` are inputs. The canonical map gives `realpath`'s result where it has one. Lemmas that need disjoint entry kinds (`ExistingFileKept`, `PlainFileTarget`) or need `realpath` to fail on a missing path (`MissingTargetIsNotFound`, `MissingFileIsNotFound`) require `Valid()`; `Handle` and `HandleRequest` are stated for any file system value. `Valid()` does not capture `realpath("")` giving the working directory, so a `DOCUMENT_ROOT` of "" is not covered by those lemmas: in PHP it makes containment pass whenever the working directory is a prefix of the canonical file path.
- The included script is limited to the steps of `Runtime.Action` followed by an optional throw. `exit`, further includes, and errors thrown by built-ins outside the included file are not modelled.
- Concurrency between workers is left out. The handler is sequential and does not address it.
- The end-to-end HTTP tests under tests/ describe the Caddy server in front of the worker, not this code, and are not part of this model.

=== FILE: handler_properties.dfy ===
/**
 * What one invocation of the request handler (worker.php lines 34-143)
 * guarantees, stated over Runtime.Handle.
 */
module HandlerProperties {
  import opened Wrappers
  import opened PhpStrings
  import opened Routing
  import opened Runtime

  /** The target passes the containment test and the extension gate, so it is included. */
  predicate Runs(st: State, fs: FileSystem) {
    var filePath := Target(fs, st.vars.server);
    Contained(fs, filePath, DocumentRoot(st.vars.server)) && Extension(filePath) == "php"
  }

  /** The state the included script leaves behind. */
  function AfterScript(st: State, fs: FileSystem, script: Script): State {
    Exec(Prepared(st, Target(fs, st.vars.server), DocumentRoot(st.vars.server)), script.actions)
  }

  /** When the gates pass, the handler is: prepare, run, then catch or deliver, then clean up. */
  lemma HandleWhenRuns(st: State, fs: FileSystem, env: map<string, string>, script: Script)
    requires Runs(st, fs)
    ensures Handle(st, fs, env, script) ==
      var ran := AfterScript(st, fs, script);
      Cleanup(if script.throws.Some? then Recover(ran, script.throws.value, env) else ran.(out := Deliver(ran.out)))
  {
  }

  /**
   * Lines 70-77: a target outside the canonical root (or one that does not
   * canonicalise) gets 404 and "404 Not Found", and nothing is included.
   * The text reaches the client only when no buffer was open on entry.
   */
  lemma RejectedTargetIsNotFound(st: State, fs: FileSystem, env: map<string, string>, script: Script)
    requires !Contained(fs, Target(fs, st.vars.server), DocumentRoot(st.vars.server))
    ensures var r := Handle(st, fs, env, script);
      && r.out.status == (if st.out.headersSent then st.out.status else 404)
      && r.out.body == (if st.out.buffers == [] then st.out.body + NotFoundText else st.out.body)
      && r.included == st.included
      && r.log == st.log
  {
  }

  /**
   * Lines 62-77: on a well-formed file system, a target that does not exist
   * has no canonical path, so it is refused like any target outside the root.
   */
  lemma MissingTargetIsNotFound(st: State, fs: FileSystem, env: map<string, string>, script: Script)
    requires fs.Valid() && !fs.Exists(Target(fs, st.vars.server))
    ensures var r := Handle(st, fs, env, script);
      && r.out.status == (if st.out.headersSent then st.out.status else 404)
      && r.out.body == (if st.out.buffers == [] then st.out.body + NotFoundText else st.out.body)
      && r.included == st.included
      && r.log == st.log
  {
    assert fs.RealPath(Target(fs, st.vars.server)).None?;
    RejectedTargetIsNotFound(st, fs, env, script);
  }

  /**
   * A request for a path that does not exist, under a root without a front
   * controller, gets 404 and "404 Not Found", and nothing is included.
   */
  lemma MissingFileIsNotFound(st: State, fs: FileSystem, env: map<string, string>, script: Script)
    requires fs.Valid()
    requires !fs.Exists(DocumentRoot(st.vars.server) + RoutePath(st.vars.server))
    requires !fs.Exists(FrontController(DocumentRoot(st.vars.server)))
    ensures var r := Handle(st, fs, env, script);
      && r.out.status == (if st.out.headersSent then st.out.status else 404)
      && r.out.body == (if st.out.buffers == [] then st.out.body + NotFoundText else st.out.body)
      && r.included == st.included
  {
    CandidateKept(fs, DocumentRoot(st.vars.server), RoutePath(st.vars.server));
    MissingTargetIsNotFound(st, fs, env, script);
  }

  /**
   * Lines 80 and 101-106: a contained target whose extension is not "php"
   * gets 404 and "File not found or not a PHP file", and is not included.
   */
  lemma NonPhpTargetIsNotFound(st: State, fs: FileSystem, env: map<string, string>, script: Script)
    requires Contained(fs, Target(fs, st.vars.server), DocumentRoot(st.vars.server))
    requires Extension(Target(fs, st.vars.server)) != "php"
    ensures var r := Handle(st, fs, env, script);
      && r.out.status == (if st.out.headersSent then st.out.status else 404)
      && r.out.body == (if st.out.buffers == [] then st.out.body + NotPhpText else st.out.body)
      && r.included == st.included
      && r.log == st.log
  {
    var c := Write(SetResponseCode(st.out, 404), NotPhpText);
    assert Dispatch(st, fs, script) == Attempt(st.(out := c), None);
  }

  /**
   * The resolved target is included exactly when it passes both the
   * containment test and the extension gate, and the error log gains a
   * line exactly when the included script throws.
   */
  lemma {:induction false} IncludedIffGatesPass(st: State, fs: FileSystem, env: map<string, string>, script: Script)
    ensures var r := Handle(st, fs, env, script);
      && r.included == (if Runs(st, fs) then st.included + [Target(fs, st.vars.server)] else st.included)
      && r.log == (if Runs(st, fs) && script.throws.Some? then st.log + [LogLine(script.throws.value)] else st.log)
  {
    if Runs(st, fs) {
      var root := DocumentRoot(st.vars.server);
      ExecKeeps(Prepared(st, Target(fs, st.vars.server), root), script.actions);
    }
  }

  /**
   * Output the client already has is never retracted, and a status fixed by
   * sent headers stays fixed, whatever the request and the script do.
   */
  lemma {:induction false} SentOutputStays(st: State, fs: FileSystem, env: map<string, string>, script: Script)
    ensures Extends(st.out, Handle(st, fs, env, script).out)
  {
    var attempt := Dispatch(st, fs, script);
    TryExtends(st, fs, script);
    var caught := if attempt.thrown.Some? then Recover(attempt.state, attempt.thrown.value, env) else attempt.state;
    if attempt.thrown.Some? {
      RespondExtends(attempt.state.out, 500, ErrorBody(attempt.thrown.value, DebugEnabled(env)));
      ExtendsTransitive(st.out, attempt.state.out, caught.out);
    }
    PrefixOfAppend(caught.out.body, []);
    ExtendsTransitive(st.out, caught.out, Cleanup(caught).out);
  }

  /** The try block alone never retracts output the client has. */
  lemma {:induction false} TryExtends(st: State, fs: FileSystem, script: Script)
    ensures Extends(st.out, Dispatch(st, fs, script).state.out)
  {
    var c := st.out;
    if Runs(st, fs) {
      var filePath, root := Target(fs, st.vars.server), DocumentRoot(st.vars.server);
      var prepared := Prepared(st, filePath, root);
      PreparedExtends(st, filePath, root);
      IncludeExtends(prepared, script);
      ExtendsTransitive(c, prepared.out, Dispatch(st, fs, script).state.out);
    } else {
      RespondExtends(c, 404, NotFoundText);
      RespondExtends(c, 404, NotPhpText);
    }
  }

  /** Setting up the include changes no output the client has. */
  lemma PreparedExtends(st: State, filePath: string, root: string)
    ensures Extends(st.out, Prepared(st, filePath, root).out)
  {
    PrefixOfAppend(st.out.body, []);
  }

  /** Running the included script, and delivering its buffer when it returns, retracts nothing. */
  lemma {:induction false} IncludeExtends(prepared: State, script: Script)
    ensures var ran := Exec(prepared, script.actions);
      Extends(prepared.out, if script.throws.Some? then ran.out else Deliver(ran.out))
  {
    ExecKeeps(prepared, script.actions);
    var ran := Exec(prepared, script.actions).out;
    if script.throws.None? && ran.buffers != [] {
      WriteExtends(EndCleanBuffer(ran), Top(ran));
      PrefixOfAppend(ran.body, []);
      ExtendsTransitive(ran, EndCleanBuffer(ran), Deliver(ran));
      ExtendsTransitive(prepared.out, ran, Deliver(ran));
    }
  }

  /**
   * Lines 108-115: a throw from the included script logs one line and sets
   * status 500 (unless headers were already sent); the catch block's text
   * reaches the client only if no buffer is open at that point.
   */
  lemma {:induction false} ThrowIsServerError(st: State, fs: FileSystem, env: map<string, string>, script: Script)
    requires Runs(st, fs) && script.throws.Some?
    ensures var ran := AfterScript(st, fs, script);
      var r := Handle(st, fs, env, script);
      && r.out.status == (if ran.out.headersSent then ran.out.status else 500)
      && r.out.body == (if ran.out.buffers == [] then ran.out.body + ErrorBody(script.throws.value, DebugEnabled(env)) else ran.out.body)
      && r.log == st.log + [LogLine(script.throws.value)]
  {
    var root := DocumentRoot(st.vars.server);
    ExecKeeps(Prepared(st, Target(fs, st.vars.server), root), script.actions);
    HandleWhenRuns(st, fs, env, script);
    var ran := AfterScript(st, fs, script);
    var e := script.throws.value;
    var c := SetResponseCode(ran.out, 500);
    assert c.status == (if ran.out.headersSent then ran.out.status else 500);
    assert Recover(ran, e, env).out == Write(c, ErrorBody(e, DebugEnabled(env)));
  }

  /**
   * The 500 text can be lost: a script that throws while the handler's own
   * buffer is still open has "Internal Server Error" echoed into that
   * buffer, which the finally block then discards. The status is still 500,
   * whatever the script echoed or set before throwing.
   */
  lemma ErrorTextLostInOpenBuffer(st: State, fs: FileSystem, env: map<string, string>, script: Script)
    requires Runs(st, fs) && st.out.buffers == [] && !st.out.headersSent
    requires script.throws.Some? && forall i :: 0 <= i < |script.actions| ==> Plain(script.actions[i])
    ensures var r := Handle(st, fs, env, script);
      r.out.status == 500 && r.out.body == st.out.body
  {
    ExecPlainBuffered(Prepared(st, Target(fs, st.vars.server), DocumentRoot(st.vars.server)), script.actions);
    ThrowIsServerError(st, fs, env, script);
  }

  /**
   * With debugging off, a script that throws after closing every buffer
   * produces exactly "Internal Server Error": no message, file, line or
   * trace reaches the client.
   */
  lemma NoDebugDetailWhenOff(st: State, fs: FileSystem, env: map<string, string>, script: Script)
    requires Runs(st, fs) && script.throws.Some? && !DebugEnabled(env)
    requires AfterScript(st, fs, script).out.buffers == []
    ensures Handle(st, fs, env, script).out.body == AfterScript(st, fs, script).out.body + ErrorText
  {
    ThrowIsServerError(st, fs, env, script);
    ErrorBodyGenericIffNoDebug(script.throws.value, false);
  }

  /**
   * The normal path, lines 91-99, on a fresh request (no buffer open, no
   * headers sent): a script of plain steps that returns has everything it
   * echoed delivered, in order, with the status its own calls chose.
   */
  lemma {:induction false} PlainScriptDelivered(st: State, fs: FileSystem, env: map<string, string>, script: Script)
    requires Runs(st, fs) && st.out.buffers == [] && !st.out.headersSent
    requires script.throws.None? && forall i :: 0 <= i < |script.actions| ==> Plain(script.actions[i])
    ensures var r := Handle(st, fs, env, script);
      && r.out.body == st.out.body + Echoed(script.actions)
      && r.out.status == StatusAfter(st.out.status, script.actions)
      && r.included == st.included + [Target(fs, st.vars.server)]
  {
    var root := DocumentRoot(st.vars.server);
    var prepared := Prepared(st, Target(fs, st.vars.server), root);
    PlainRunDelivered(prepared, script.actions);
    ExecKeeps(prepared, script.actions);
    HandleWhenRuns(st, fs, env, script);
  }

  /** The handler's own buffer carries a plain script's output to the client. */
  lemma PlainRunDelivered(prepared: State, acts: seq<Action>)
    requires prepared.out.buffers == [""] && !prepared.out.headersSent
    requires forall i :: 0 <= i < |acts| ==> Plain(acts[i])
    ensures var c := Deliver(Exec(prepared, acts).out);
      c.body == prepared.out.body + Echoed(acts) && c.status == StatusAfter(prepared.out.status, acts)
  {
    ExecPlainBuffered(prepared, acts);
    assert Top(prepared.out) == "";
    assert "" + Echoed(acts) == Echoed(acts);
    assert prepared.out.buffers[..0] == [];
    assert Exec(prepared, acts).out.buffers == [Echoed(acts)];
  }

  /**
   * A buffer already open when the handler starts swallows everything:
   * ob_get_clean hands the script's output to that outer buffer, and the
   * drain loop of lines 139-141 discards it.
   */
  lemma {:induction false} OutputLostWhenBufferedOnEntry(st: State, fs: FileSystem, env: map<string, string>, script: Script)
    requires Runs(st, fs) && st.out.buffers != [] && !st.out.headersSent
    requires script.throws.None? && forall i :: 0 <= i < |script.actions| ==> Plain(script.actions[i])
    ensures Handle(st, fs, env, script).out.body == st.out.body
  {
    var root := DocumentRoot(st.vars.server);
    var prepared := Prepared(st, Target(fs, st.vars.server), root);
    ExecPlainBuffered(prepared, script.actions);
    var ran := AfterScript(st, fs, script).out;
    assert |ran.buffers| >= 2;
    assert EndCleanBuffer(ran).buffers != [];
  }

  /**
   * Lines 135-136: a script that leaves $_SESSION alone finds it kept when it
   * was set and set to an empty array when it was not; the same for $_COOKIE.
   */
  lemma {:induction false} SessionAndCookieKept(st: State, fs: FileSystem, env: map<string, string>, script: Script)
    ensures (forall i :: 0 <= i < |script.actions| ==> !Touches(script.actions[i], Session)) ==>
      Handle(st, fs, env, script).vars.session ==
        (if st.vars.session.Some? then st.vars.session else Some(map[]))
    ensures (forall i :: 0 <= i < |script.actions| ==> !Touches(script.actions[i], Cookie)) ==>
      Handle(st, fs, env, script).vars.cookie ==
        (if st.vars.cookie.Some? then st.vars.cookie else Some(map[]))
  {
    if Runs(st, fs) {
      var root := DocumentRoot(st.vars.server);
      ExecKeepsUntouched(Prepared(st, Target(fs, st.vars.server), root), script.actions);
      HandleWhenRuns(st, fs, env, script);
    }
  }

  /**
   * Line 83 on the front controller: PHP_SELF is "/index.php" when the
   * document root is not empty and does not occur inside "/index.php".
   */
  lemma PhpSelfOfFrontController(st: State, root: string)
    requires root != [] && Strpos(IndexScript, root) == None
    ensures var v := Prepared(st, FrontController(root), root).vars.server;
      v["SCRIPT_FILENAME"] == root + "/index.php" && v["PHP_SELF"] == "/index.php"
  {
    RemoveAllLeading(root, IndexScript);
    RemoveAllAbsent(root, IndexScript);
  }

  /**
   * str_replace removes every occurrence of the root, not only the leading
   * one: root "/app" and file "/app/app/index.php" give PHP_SELF "/index.php".
   */
  lemma PhpSelfRemovesEveryOccurrence(st: State)
    ensures Prepared(st, "/app/app/index.php", "/app").vars.server["PHP_SELF"] == "/index.php"
  {
    RemoveAllRepeatedRoot();
  }

  /** str_replace("/app", "", "/app/app/index.php") is "/index.php". */
  lemma RemoveAllRepeatedRoot()
    ensures RemoveAll("/app", "/app/app/index.php") == "/index.php"
  {
    assert "/app/app/index.php" == "/app" + ("/app" + "/index.php");
    RemoveAllLeading("/app", "/app" + "/index.php");
    RemoveAllLeading("/app", "/index.php");
    assert "/app"[1] == 'a' && 'a' !in "/index.php";
    AbsentCharNoOccurrence("/index.php", "/app", 1);
    RemoveAllAbsent("/app", "/index.php");
  }

  /**
   * The file system of the traversal scenario: the default root and, outside
   * it, /etc/passwd. Four ".." steps from /var/www/html/public reach "/", so
   * realpath of the requested path is /etc/passwd.
   */
  function TraversalFs(): FileSystem {
    FileSystem({DefaultDocumentRoot}, {DefaultDocumentRoot + "/../../../../etc/passwd", "/etc/passwd"}, {},
      map[DefaultDocumentRoot + "/../../../../etc/passwd" := "/etc/passwd", DefaultDocumentRoot := DefaultDocumentRoot])
  }

  /** A plain request path naming an existing regular file under the default root is run as named. */
  lemma PlainFileTarget(fs: FileSystem, server: map<string, string>, path: string)
    requires server == map["REQUEST_URI" := path]
    requires path != [] && '?' !in path && '#' !in path
    requires fs.Valid() && fs.IsFile(DefaultDocumentRoot + path)
    ensures Target(fs, server) == DefaultDocumentRoot + path
  {
    UrlPathPlain(path);
    ExistingFileKept(fs, DefaultDocumentRoot, path);
  }

  /** "/../../../../etc/passwd" resolves to the file as named: it exists and there is no front controller. */
  lemma TraversalTarget(server: map<string, string>)
    requires server == map["REQUEST_URI" := "/../../../../etc/passwd"]
    ensures Target(TraversalFs(), server) == DefaultDocumentRoot + "/../../../../etc/passwd"
  {
    var fs := TraversalFs();
    assert |DefaultDocumentRoot + "/../../../../etc/passwd"| > |DefaultDocumentRoot|;
    assert fs.Valid();
    PlainFileTarget(fs, server, "/../../../../etc/passwd");
  }

  /** The canonical path of that file, /etc/passwd, does not begin with the root. */
  lemma TraversalEscapes()
    ensures !Contained(TraversalFs(), DefaultDocumentRoot + "/../../../../etc/passwd", DefaultDocumentRoot)
  {
    ContainedIsCanonicalPrefix(TraversalFs(), DefaultDocumentRoot + "/../../../../etc/passwd", DefaultDocumentRoot);
    assert |"/etc/passwd"| < |DefaultDocumentRoot|;
  }

  /**
   * A request that climbs out of the default root with "../" is refused
   * with 404 and nothing is included.
   */
  lemma TraversalRejected(st: State, env: map<string, string>, script: Script)
    requires st.vars.server == map["REQUEST_URI" := "/../../../../etc/passwd"]
    requires !st.out.headersSent && st.out.buffers == []
    ensures var r := Handle(st, TraversalFs(), env, script);
      r.out.status == 404 && r.out.body == st.out.body + NotFoundText && r.included == st.included
  {
    TraversalTarget(st.vars.server);
    TraversalEscapes();
    RejectedTargetIsNotFound(st, TraversalFs(), env, script);
  }
}

=== FILE: php_strings.dfy ===
/**
 * The string and path functions of the PHP runtime that the worker's
 * request handler calls, as pure functions over `string` (a `seq<char>`).
 */
module PhpStrings {
  import opened Wrappers

  /** PHP's conversion of a string to bool: only "" and "0" are false. */
  predicate Truthy(s: string) {
    s != "" && s != "0"
  }

  predicate IsPrefix(p: string, s: string) {
    |p| <= |s| && s[..|p|] == p
  }

  predicate IsSuffix(x: string, s: string) {
    |x| <= |s| && s[|s| - |x|..] == x
  }

  /** The needle n occurs in h starting at index i. */
  predicate OccursAt(h: string, n: string, i: nat) {
    i + |n| <= |h| && h[i..i + |n|] == n
  }

  /** A needle holding a character that the haystack lacks occurs nowhere in it. */
  lemma AbsentCharNoOccurrence(h: string, n: string, k: nat)
    requires k < |n| && n[k] !in h
    ensures Strpos(h, n) == None
  {
    forall i: nat
      ensures !OccursAt(h, n, i)
    {
      if i + |n| <= |h| {
        assert h[i..i + |n|][k] == h[i + k];
      }
    }
  }

  /** An occurrence at i + 1 in h is an occurrence at i in h without its first character. */
  lemma OccursAtTail(h: string, n: string)
    requires h != []
    ensures forall i: nat :: 0 < i ==> (OccursAt(h, n, i) <==> OccursAt(h[1..], n, i - 1))
  {
    forall i: nat | 0 < i
      ensures OccursAt(h, n, i) <==> OccursAt(h[1..], n, i - 1)
    {
      if i + |n| <= |h| {
        assert h[1..][i - 1..i - 1 + |n|] == h[i..i + |n|];
      }
    }
  }

  /**
   * strpos($h, $n): the index of the first occurrence of n in h, or None
   * where PHP returns false. An empty needle is found at 0 (PHP 8).
   */
  function Strpos(h: string, n: string): (r: Option<nat>)
    ensures r.Some? ==> OccursAt(h, n, r.value)
    ensures r.Some? ==> forall i: nat :: i < r.value ==> !OccursAt(h, n, i)
    ensures r.None? ==> forall i: nat :: !OccursAt(h, n, i)
    ensures r == Some(0) <==> IsPrefix(n, h)
    decreases |h|
  {
    if |h| < |n| then None
    else if h[..|n|] == n then Some(0)
    else
      OccursAtTail(h, n);
      match Strpos(h[1..], n)
      case None => None
      case Some(i) => Some(i + 1)
  }

  /** rtrim($s, '/'): s without its trailing slashes. */
  function RTrimSlashes(s: string): (r: string)
    ensures IsPrefix(r, s)
    ensures r == [] || r[|r| - 1] != '/'
    ensures forall i :: |r| <= i < |s| ==> s[i] == '/'
    decreases |s|
  {
    if s != [] && s[|s| - 1] == '/' then RTrimSlashes(s[..|s| - 1]) else s
  }

  /** The part of s after its last c; all of s when c does not occur in it. */
  function AfterLast(s: string, c: char): (r: string)
    ensures IsSuffix(r, s)
    ensures c !in r
    ensures |r| < |s| ==> s[|s| - |r| - 1] == c
    decreases |s|
  {
    if s == [] then []
    else if s[|s| - 1] == c then []
    else AfterLast(s[..|s| - 1], c) + [s[|s| - 1]]
  }

  /** When the last k characters of s avoid c, all of them lie in AfterLast(s, c). */
  lemma AfterLastCovers(s: string, c: char, k: nat)
    requires k <= |s|
    requires c !in s[|s| - k..]
    ensures |AfterLast(s, c)| >= k
  {
  }

  /** basename($p): the last path component, trailing slashes ignored. */
  function Basename(p: string): string {
    AfterLast(RTrimSlashes(p), '/')
  }

  /**
   * pathinfo($p, PATHINFO_EXTENSION): the text after the last '.' of the
   * base name, or "" when the base name has no '.'.
   */
  function Extension(p: string): string {
    var base := Basename(p);
    if '.' in base then AfterLast(base, '.') else ""
  }

  /** A base name whose text after its last '.' is "php" ends in ".php". */
  lemma PhpExtensionEndsBase(base: string)
    requires '.' in base && AfterLast(base, '.') == "php"
    ensures IsSuffix(".php", base)
  {
    var e := AfterLast(base, '.');
    assert |e| < |base|;
    assert base[|base| - 4..] == [base[|base| - 4]] + e;
  }

  /** A base name ending in ".php" has "php" after its last '.'. */
  lemma BaseEndingPhp(base: string)
    requires IsSuffix(".php", base)
    ensures '.' in base && AfterLast(base, '.') == "php"
  {
    assert base[|base| - 4] == '.';
    var e := AfterLast(base, '.');
    assert base[|base| - 3..] == "php";
    AfterLastCovers(base, '.', 3);
    assert |e| == 3;
  }

  /** The base name ends in ".php" exactly when the slash-trimmed path does. */
  lemma BasenameKeepsPhpSuffix(p: string)
    ensures IsSuffix(".php", Basename(p)) <==> IsSuffix(".php", RTrimSlashes(p))
  {
    var t := RTrimSlashes(p);
    if IsSuffix(".php", t) {
      AfterLastCovers(t, '/', 4);
      SuffixOfSuffix(".php", Basename(p), t);
    }
    if IsSuffix(".php", Basename(p)) {
      SuffixOfSuffix(".php", t, Basename(p));
    }
  }

  /** Of two suffixes of the same string, the longer ends with whatever the shorter ends with. */
  lemma SuffixOfSuffix(x: string, a: string, b: string)
    requires IsSuffix(a, b) || IsSuffix(b, a)
    requires |x| <= |a| && IsSuffix(x, b)
    ensures IsSuffix(x, a)
  {
    assert a[|a| - |x|..] == b[|b| - |x|..];
  }

  /**
   * The extension is "php" exactly when the path, trailing slashes
   * removed, ends in ".php" (so "/x.php/" counts, "/x.php.txt" does not).
   */
  lemma ExtensionIsPhp(p: string)
    ensures Extension(p) == "php" <==> IsSuffix(".php", RTrimSlashes(p))
  {
    var base := Basename(p);
    BasenameKeepsPhpSuffix(p);
    if Extension(p) == "php" {
      PhpExtensionEndsBase(base);
    }
    if IsSuffix(".php", base) {
      BaseEndingPhp(base);
    }
  }

  /**
   * str_replace($search, '', $subject): the occurrences of search, found
   * left to right without overlap, removed; an empty search changes nothing.
   */
  function RemoveAll(search: string, subject: string): (r: string)
    ensures |r| <= |subject|
    decreases |subject|
  {
    if search == [] || |subject| < |search| then subject
    else if subject[..|search|] == search then RemoveAll(search, subject[|search|..])
    else [subject[0]] + RemoveAll(search, subject[1..])
  }

  /** A subject in which search never occurs comes back unchanged. */
  lemma {:induction false} RemoveAllAbsent(search: string, subject: string)
    requires Strpos(subject, search) == None
    ensures RemoveAll(search, subject) == subject
    decreases |subject|
  {
    if |subject| >= |search| {
      assert search != [] && subject != [];
      assert !OccursAt(subject, search, 0);
      OccursAtTail(subject, search);
      assert Strpos(subject[1..], search) == None by {
        forall i: nat ensures !OccursAt(subject[1..], search, i) {
          assert !OccursAt(subject, search, i + 1);
        }
      }
      RemoveAllAbsent(search, subject[1..]);
      assert [subject[0]] + subject[1..] == subject;
    }
  }

  /** An empty search string changes nothing, as in PHP 8. */
  lemma RemoveAllEmptySearch(subject: string)
    ensures RemoveAll([], subject) == subject
  {
  }

  /** A leading occurrence is removed and the scan goes on after it. */
  lemma RemoveAllLeading(search: string, rest: string)
    requires search != []
    ensures RemoveAll(search, search + rest) == RemoveAll(search, rest)
  {
    assert (search + rest)[..|search|] == search;
    assert (search + rest)[|search|..] == rest;
  }

  /**
   * The first occurrence, wherever it lies, is removed with everything
   * before it kept, and the scan goes on after it. With RemoveAllAbsent and
   * RemoveAllEmptySearch this fixes str_replace($search, '', $subject) on
   * every input.
   */
  lemma {:induction false} RemoveAllFirst(search: string, subject: string, i: nat)
    requires search != [] && Strpos(subject, search) == Some(i)
    ensures RemoveAll(search, subject) == subject[..i] + RemoveAll(search, subject[i + |search|..])
  {
    var pre, rest := subject[..i], subject[i..];
    assert pre + rest == subject;
    RemoveAllKeepsPrefix(search, pre, rest);
    assert rest == search + subject[i + |search|..];
    RemoveAllLeading(search, subject[i + |search|..]);
  }

  /**
   * Characters at which no occurrence starts are kept, in order, in front
   * of what the rest of the scan leaves.
   */
  lemma {:induction false} RemoveAllKeepsPrefix(search: string, pre: string, rest: string)
    requires search != []
    requires forall j: nat :: j < |pre| ==> !OccursAt(pre + rest, search, j)
    ensures RemoveAll(search, pre + rest) == pre + RemoveAll(search, rest)
    decreases |pre|
  {
    if pre == [] {
      assert pre + rest == rest;
    } else if |pre + rest| < |search| {
      assert RemoveAll(search, rest) == rest;
    } else {
      var s := pre + rest;
      assert !OccursAt(s, search, 0);
      assert s[1..] == pre[1..] + rest;
      OccursAtTail(s, search);
      forall j: nat | j < |pre[1..]|
        ensures !OccursAt(pre[1..] + rest, search, j)
      {
        assert !OccursAt(s, search, j + 1);
      }
      RemoveAllKeepsPrefix(search, pre[1..], rest);
      assert [pre[0]] + (pre[1..] + RemoveAll(search, rest)) == pre + RemoveAll(search, rest);
    }
  }

  function DigitChar(d: nat): char
    requires d < 10
  {
    "0123456789"[d]
  }

  /** The decimal text PHP produces when it converts a non-negative int to string. */
  function DecimalString(n: nat): (r: string)
    ensures r != []
    ensures forall i :: 0 <= i < |r| ==> '0' <= r[i] <= '9'
    ensures n > 0 ==> r[0] != '0'
  {
    if n < 10 then [DigitChar(n)] else DecimalString(n / 10) + [DigitChar(n % 10)]
  }

  /** The number a string of decimal digits denotes. */
  function DecimalValue(s: string): nat
    requires forall i :: 0 <= i < |s| ==> '0' <= s[i] <= '9'
  {
    if s == [] then 0
    else DecimalValue(s[..|s| - 1]) * 10 + (s[|s| - 1] as int - '0' as int)
  }

  /** Reading the decimal text back gives the number. */
  lemma {:induction false} DecimalRoundTrip(n: nat)
    ensures DecimalValue(DecimalString(n)) == n
  {
    if n >= 10 {
      var s := DecimalString(n);
      assert s[..|s| - 1] == DecimalString(n / 10);
      DecimalRoundTrip(n / 10);
    }
  }

  /** Length of the path part of a request target: everything before the first '?' or '#'. */
  function PathLength(uri: string): (k: nat)
    ensures k <= |uri|
    ensures forall i :: 0 <= i < k ==> uri[i] != '?' && uri[i] != '#'
    ensures k < |uri| ==> uri[k] == '?' || uri[k] == '#'
  {
    if uri == [] || uri[0] == '?' || uri[0] == '#' then 0 else 1 + PathLength(uri[1..])
  }

  /**
   * The "path" element of parse_url($uri), read as "everything before the
   * first '?' or '#'"; None when that part is empty but the target is not.
   */
  function UrlPath(uri: string): (r: Option<string>)
    ensures r.Some? ==> IsPrefix(r.value, uri) && '?' !in r.value && '#' !in r.value
    ensures r.Some? && |r.value| < |uri| ==> uri[|r.value|] == '?' || uri[|r.value|] == '#'
    ensures r.None? <==> uri != [] && (uri[0] == '?' || uri[0] == '#')
  {
    var k := PathLength(uri);
    if k == 0 && uri != [] then None else Some(uri[..k])
  }

  lemma {:induction false} PathLengthPlain(uri: string)
    requires '?' !in uri && '#' !in uri
    ensures PathLength(uri) == |uri|
  {
    if uri != [] {
      PathLengthPlain(uri[1..]);
    }
  }

  /** A target with no '?' and no '#' is all path. */
  lemma UrlPathPlain(uri: string)
    requires '?' !in uri && '#' !in uri
    ensures UrlPath(uri) == Some(uri)
  {
    PathLengthPlain(uri);
    assert uri[..|uri|] == uri;
  }
}

=== FILE: routing.dfy ===
/**
 * How the worker's request handler turns `$_SERVER` into the file it
 * means to run (worker.php lines 37-67) and the containment test it puts
 * that file through (lines 70-73). The filesystem is a value: which paths
 * are directories, regular files or other entries, and what `realpath`
 * returns for each path it can canonicalise.
 */
module Routing {
  import opened Wrappers
  import opened PhpStrings

  const DefaultDocumentRoot: string := "/var/www/html/public"
  const IndexScript: string := "/index.php"

  datatype FileSystem = FileSystem(
    dirs: set<string>,
    files: set<string>,
    others: set<string>,
    canonical: map<string, string>)
  {
    /**
     * No path is two kinds of entry at once, and realpath succeeds only on
     * paths that exist, giving a path that exists.
     */
    predicate Valid() {
      && dirs !! files && dirs !! others && files !! others
      && (forall p :: p in canonical ==> Exists(p) && Exists(canonical[p]))
    }

    /** is_dir */
    predicate IsDir(p: string) {
      p in dirs
    }

    /** is_file: a regular file */
    predicate IsFile(p: string) {
      p in files
    }

    /** file_exists: an entry of any kind */
    predicate Exists(p: string) {
      p in dirs || p in files || p in others
    }

    /** realpath: None where PHP returns false */
    function RealPath(p: string): Option<string> {
      if p in canonical then Some(canonical[p]) else None
    }
  }

  /** `$_SERVER[key] ?? default` */
  function ServerValue(server: map<string, string>, key: string, default: string): string {
    if key in server then server[key] else default
  }

  function RequestUri(server: map<string, string>): string {
    ServerValue(server, "REQUEST_URI", "/")
  }

  function ScriptName(server: map<string, string>): string {
    ServerValue(server, "SCRIPT_NAME", "")
  }

  function DocumentRoot(server: map<string, string>): string {
    ServerValue(server, "DOCUMENT_ROOT", DefaultDocumentRoot)
  }

  /** `parse_url($requestUri)['path'] ?? '/'` */
  function RequestPath(uri: string): string {
    match UrlPath(uri)
    case None => "/"
    case Some(p) => p
  }

  /** Absent `$_SERVER` entries and a target without a path part fall back to the defaults. */
  lemma DefaultsApply(server: map<string, string>)
    requires "REQUEST_URI" !in server && "SCRIPT_NAME" !in server && "DOCUMENT_ROOT" !in server
    ensures RequestPath(RequestUri(server)) == "/"
    ensures ScriptName(server) == ""
    ensures DocumentRoot(server) == "/var/www/html/public"
  {
    UrlPathPlain("/");
  }

  /** A request target that starts with its query or fragment routes as "/". */
  lemma {:induction false} MissingPathIsRoot(uri: string)
    requires uri != [] && (uri[0] == '?' || uri[0] == '#')
    ensures RequestPath(uri) == "/"
  {
  }

  /**
   * Lines 46-48: a truthy script name that starts the path is cut off the
   * front of it; otherwise the path stays as it is.
   */
  function StripScriptName(path: string, scriptName: string): (r: string)
    ensures Truthy(scriptName) && IsPrefix(scriptName, path) ==> scriptName + r == path
    ensures !(Truthy(scriptName) && IsPrefix(scriptName, path)) ==> r == path
  {
    if Truthy(scriptName) && Strpos(path, scriptName) == Some(0) then path[|scriptName|..] else path
  }

  /** The routing path of lines 37-48. */
  function RoutePath(server: map<string, string>): string {
    StripScriptName(RequestPath(RequestUri(server)), ScriptName(server))
  }

  /** `rtrim($dir, '/') . '/index.php'` */
  function DirectoryIndex(dir: string): string {
    RTrimSlashes(dir) + IndexScript
  }

  /** `$documentRoot . '/index.php'` */
  function FrontController(root: string): string {
    root + IndexScript
  }

  /**
   * Lines 51-67: the candidate `root . path`, replaced by the directory's
   * index.php when it is a directory that has one, then replaced by the
   * front controller when what is left is not a regular file and the
   * front controller exists.
   */
  function ResolveTarget(fs: FileSystem, root: string, path: string): (r: string)
    ensures r == root + path || r == DirectoryIndex(root + path) || r == FrontController(root)
    ensures r != root + path ==> fs.Exists(r)
    ensures fs.Exists(FrontController(root)) ==> fs.IsFile(r) || r == FrontController(root)
  {
    var candidate := root + path;
    var afterDir :=
      if fs.IsDir(candidate) && fs.Exists(DirectoryIndex(candidate)) then DirectoryIndex(candidate)
      else candidate;
    if (!fs.Exists(afterDir) || !fs.IsFile(afterDir)) && fs.Exists(FrontController(root)) then
      FrontController(root)
    else
      afterDir
  }

  /** The file the handler means to run for this `$_SERVER`. */
  function Target(fs: FileSystem, server: map<string, string>): string {
    ResolveTarget(fs, DocumentRoot(server), RoutePath(server))
  }

  /** A directory whose index.php is a regular file resolves to that index. */
  lemma DirectoryIndexWins(fs: FileSystem, root: string, path: string)
    requires fs.IsDir(root + path) && fs.IsFile(DirectoryIndex(root + path))
    ensures ResolveTarget(fs, root, path) == DirectoryIndex(root + path)
  {
  }

  /** An existing regular file is run as it is. */
  lemma ExistingFileKept(fs: FileSystem, root: string, path: string)
    requires fs.Valid() && fs.IsFile(root + path)
    ensures ResolveTarget(fs, root, path) == root + path
  {
  }

  /** With no more specific match, an existing front controller takes the request. */
  lemma FrontControllerFallback(fs: FileSystem, root: string, path: string)
    requires !fs.IsFile(root + path)
    requires !(fs.IsDir(root + path) && fs.Exists(DirectoryIndex(root + path)))
    requires fs.Exists(FrontController(root))
    ensures ResolveTarget(fs, root, path) == FrontController(root)
  {
  }

  /**
   * Without a directory index and without a front controller the candidate
   * is kept, whether it is a directory, a missing path or anything else.
   */
  lemma CandidateKept(fs: FileSystem, root: string, path: string)
    requires !(fs.IsDir(root + path) && fs.Exists(DirectoryIndex(root + path)))
    requires !fs.Exists(FrontController(root))
    ensures ResolveTarget(fs, root, path) == root + path
  {
  }

  /** So resolution can end on a directory, and on a path that does not exist. */
  lemma UnresolvedCandidates()
    ensures var fs := FileSystem({"/srv/docs"}, {}, {}, map[]);
      ResolveTarget(fs, "/srv", "/docs") == "/srv/docs" && fs.IsDir("/srv/docs")
    ensures var fs := FileSystem({}, {}, {}, map[]);
      ResolveTarget(fs, "/srv", "/gone") == "/srv/gone" && !fs.Exists("/srv/gone")
  {
    var fs := FileSystem({"/srv/docs"}, {}, {}, map[]);
    CandidateKept(fs, "/srv", "/docs");
    CandidateKept(FileSystem({}, {}, {}, map[]), "/srv", "/gone");
  }

  /** Appending one slash to a root without a trailing slash trims back to the root. */
  lemma RTrimAppendedSlash(root: string)
    requires root == [] || root[|root| - 1] != '/'
    ensures RTrimSlashes(root + "/") == root
  {
    assert (root + "/")[..|root|] == root;
  }

  /**
   * A request for "/" whose root directory holds index.php runs that file,
   * by the directory step.
   */
  lemma RootRequestRunsIndex(fs: FileSystem, root: string)
    requires root == [] || root[|root| - 1] != '/'
    requires fs.IsDir(root + "/") && fs.IsFile(root + "/index.php")
    ensures ResolveTarget(fs, root, "/") == root + "/index.php"
  {
    RTrimAppendedSlash(root);
  }

  /** `realpath` succeeded and gave a truthy string. */
  predicate Canonicalised(o: Option<string>) {
    o.Some? && Truthy(o.value)
  }

  /**
   * Lines 70-73: both paths canonicalise and the canonical file path
   * begins, as a string, with the canonical root.
   */
  predicate Contained(fs: FileSystem, filePath: string, root: string) {
    var f := fs.RealPath(filePath);
    var d := fs.RealPath(root);
    Canonicalised(f) && Canonicalised(d) && Strpos(f.value, d.value) == Some(0)
  }

  /** Containment is a string-prefix test on the canonical paths, in both directions. */
  lemma ContainedIsCanonicalPrefix(fs: FileSystem, filePath: string, root: string)
    ensures Contained(fs, filePath, root) <==>
      filePath in fs.canonical && root in fs.canonical
      && Truthy(fs.canonical[filePath]) && Truthy(fs.canonical[root])
      && IsPrefix(fs.canonical[root], fs.canonical[filePath])
  {
  }

  /**
   * The prefix test is not "lies under the root": a file of the sibling
   * directory public2 passes for the root public.
   */
  lemma SiblingDirectoryPasses()
    ensures var fs := FileSystem(
        {"/var/www/html/public"},
        {"/var/www/html/public/link.php", "/var/www/html/public2/secret.php"}, {},
        map["/var/www/html/public/link.php" := "/var/www/html/public2/secret.php",
            "/var/www/html/public" := "/var/www/html/public"]);
      fs.Valid() && Contained(fs, "/var/www/html/public/link.php", "/var/www/html/public")
  {
    var f := "/var/www/html/public2/secret.php";
    assert f[..|"/var/www/html/public"|] == "/var/www/html/public";
  }
}

=== FILE: runtime.dfy ===
/**
 * The PHP runtime state one invocation of the worker's request handler
 * reads and changes, the output-buffer and response-code builtins over it,
 * and the handler itself (worker.php lines 34-143) as a function from the
 * state before the request to the state after it.
 */
module Runtime {
  import opened Wrappers
  import opened PhpStrings
  import opened Routing

  type Vars = map<string, string>

  /** What a Throwable carries into the catch block. */
  datatype Throwable = Throwable(message: string, file: string, line: nat, trace: string)

  datatype Superglobal = Get | Post | Request | Files | Session | Cookie | Server

  /** One step of the included script that touches the state modelled here. */
  datatype Action =
    | Echo(text: string)
    | ObStart
    | ObClean
    | ObEndClean
    | ObEndFlush
    | ResponseCode(code: int)
    | Assign(global: Superglobal, key: string, value: string)

  /** The included script: its steps, then a normal return or a throw. */
  datatype Script = Script(actions: seq<Action>, throws: Option<Throwable>)

  /**
   * The response side. status: the HTTP response code; headersSent: output
   * has reached the client, after which the code is fixed; body: what
   * reached the client; buffers: the output-buffer stack, innermost last.
   */
  datatype Channel = Channel(status: int, headersSent: bool, body: string, buffers: seq<string>)

  /** The superglobals; session and cookie are None while unset. */
  datatype Globals = Globals(
    server: Vars,
    get: Vars,
    post: Vars,
    request: Vars,
    files: Vars,
    session: Option<Vars>,
    cookie: Option<Vars>)

  /** included: the files included so far; log: the lines written by error_log. */
  datatype State = State(out: Channel, vars: Globals, included: seq<string>, log: seq<string>)

  const NotFoundText: string := "404 Not Found"
  const NotPhpText: string := "File not found or not a PHP file"
  const ErrorText: string := "Internal Server Error"

  // ---------------------------------------------------------------------
  // Output buffering and the response code
  // ---------------------------------------------------------------------

  /** The innermost output buffer. */
  function Top(c: Channel): string
    requires c.buffers != []
  {
    c.buffers[|c.buffers| - 1]
  }

  function Concat(bs: seq<string>): string {
    if bs == [] then [] else Concat(bs[..|bs| - 1]) + bs[|bs| - 1]
  }

  /** All output so far, sent or still buffered, in order. */
  function Pending(c: Channel): string {
    c.body + Concat(c.buffers)
  }

  /** echo: into the innermost buffer, or to the client when none is open. */
  function Write(c: Channel, s: string): Channel {
    if c.buffers == [] then
      c.(body := c.body + s, headersSent := c.headersSent || s != [])
    else
      c.(buffers := c.buffers[..|c.buffers| - 1] + [Top(c) + s])
  }

  /**
   * http_response_code($code): PHP refuses once the headers have gone out,
   * and a code of 0 only reads the current code.
   */
  function SetResponseCode(c: Channel, code: int): Channel {
    if c.headersSent || code == 0 then c else c.(status := code)
  }

  /** ob_start() */
  function StartBuffer(c: Channel): Channel {
    c.(buffers := c.buffers + [""])
  }

  /** ob_clean(): empties the innermost buffer. */
  function CleanBuffer(c: Channel): Channel {
    if c.buffers == [] then c else c.(buffers := c.buffers[..|c.buffers| - 1] + [""])
  }

  /** ob_end_clean(): drops the innermost buffer and its contents. */
  function EndCleanBuffer(c: Channel): Channel {
    if c.buffers == [] then c else c.(buffers := c.buffers[..|c.buffers| - 1])
  }

  /** ob_end_flush(): closes the innermost buffer, passing its contents outwards. */
  function EndFlushBuffer(c: Channel): Channel {
    if c.buffers == [] then c else Write(EndCleanBuffer(c), Top(c))
  }

  lemma ConcatSnoc(bs: seq<string>, x: string)
    ensures Concat(bs + [x]) == Concat(bs) + x
  {
    assert (bs + [x])[..|bs|] == bs;
  }

  /** echo adds exactly its text to the pending output, wherever it lands. */
  lemma WriteExtendsPending(c: Channel, s: string)
    ensures Pending(Write(c, s)) == Pending(c) + s
  {
    if c.buffers != [] {
      var outer := c.buffers[..|c.buffers| - 1];
      assert c.buffers == outer + [Top(c)];
      ConcatSnoc(outer, Top(c));
      ConcatSnoc(outer, Top(c) + s);
    }
  }

  /** ob_end_flush loses nothing and reorders nothing. */
  lemma EndFlushKeepsPending(c: Channel)
    ensures Pending(EndFlushBuffer(c)) == Pending(c)
  {
    if c.buffers != [] {
      var outer := c.buffers[..|c.buffers| - 1];
      assert c.buffers == outer + [Top(c)];
      ConcatSnoc(outer, Top(c));
      WriteExtendsPending(EndCleanBuffer(c), Top(c));
    }
  }

  /** ob_end_clean discards exactly the innermost buffer's contents. */
  lemma EndCleanDropsTop(c: Channel)
    requires c.buffers != []
    ensures Pending(c) == Pending(EndCleanBuffer(c)) + Top(c)
  {
    var outer := c.buffers[..|c.buffers| - 1];
    assert c.buffers == outer + [Top(c)];
    ConcatSnoc(outer, Top(c));
  }

  /** Two echoes in a row are one echo of the joined text. */
  lemma WriteJoin(c: Channel, a: string, b: string)
    ensures Write(Write(c, a), b) == Write(c, a + b)
  {
    if c.buffers != [] {
      var outer := c.buffers[..|c.buffers| - 1];
      var once := Write(c, a);
      assert once.buffers == outer + [Top(c) + a];
      assert once.buffers[..|once.buffers| - 1] == outer;
      assert Top(once) == Top(c) + a;
      assert Top(c) + a + b == Top(c) + (a + b);
    } else {
      assert c.body + a + b == c.body + (a + b);
    }
  }

  lemma PrefixOfAppend(a: string, b: string)
    ensures IsPrefix(a, a + b)
  {
    assert (a + b)[..|a|] == a;
  }

  /** What has reached the client stays there, and so does a status fixed by it. */
  predicate Extends(c: Channel, d: Channel) {
    IsPrefix(c.body, d.body) && (c.headersSent ==> d.headersSent && d.status == c.status)
  }

  lemma ExtendsTransitive(c: Channel, d: Channel, e: Channel)
    requires Extends(c, d) && Extends(d, e)
    ensures Extends(c, e)
  {
    assert d.body[..|c.body|] == e.body[..|d.body|][..|c.body|];
  }

  lemma WriteExtends(c: Channel, s: string)
    ensures Extends(c, Write(c, s))
  {
    if c.buffers == [] {
      PrefixOfAppend(c.body, s);
    } else {
      PrefixOfAppend(c.body, []);
    }
  }

  /** A status request followed by an echo, as each branch of the handler ends. */
  lemma RespondExtends(c: Channel, code: int, s: string)
    ensures Extends(c, Write(SetResponseCode(c, code), s))
  {
    var d := SetResponseCode(c, code);
    PrefixOfAppend(c.body, []);
    WriteExtends(d, s);
    ExtendsTransitive(c, d, Write(d, s));
  }

  // ---------------------------------------------------------------------
  // The included script
  // ---------------------------------------------------------------------

  /** `$_X[key] = value`; an unset session or cookie array springs into being. */
  function AssignVar(v: Globals, g: Superglobal, key: string, value: string): Globals {
    match g
    case Get => v.(get := v.get[key := value])
    case Post => v.(post := v.post[key := value])
    case Request => v.(request := v.request[key := value])
    case Files => v.(files := v.files[key := value])
    case Server => v.(server := v.server[key := value])
    case Session =>
      v.(session := Some((if v.session.Some? then v.session.value else map[])[key := value]))
    case Cookie =>
      v.(cookie := Some((if v.cookie.Some? then v.cookie.value else map[])[key := value]))
  }

  /** What one step does to the response side. */
  function Emit(c: Channel, a: Action): Channel {
    match a
    case Echo(t) => Write(c, t)
    case ObStart => StartBuffer(c)
    case ObClean => CleanBuffer(c)
    case ObEndClean => EndCleanBuffer(c)
    case ObEndFlush => EndFlushBuffer(c)
    case ResponseCode(code) => SetResponseCode(c, code)
    case Assign(_, _, _) => c
  }

  function Step(st: State, a: Action): State {
    if a.Assign? then st.(vars := AssignVar(st.vars, a.global, a.key, a.value))
    else st.(out := Emit(st.out, a))
  }

  /** The script's steps, first to last. */
  function Exec(st: State, acts: seq<Action>): State
    decreases |acts|
  {
    if acts == [] then st else Exec(Step(st, acts[0]), acts[1..])
  }

  lemma EmitExtends(c: Channel, a: Action)
    ensures Extends(c, Emit(c, a))
  {
    WriteExtends(c, []);
    match a
    case Echo(t) => WriteExtends(c, t);
    case ObEndFlush =>
      if c.buffers != [] {
        WriteExtends(EndCleanBuffer(c), Top(c));
      }
    case _ =>
  }

  /**
   * Nothing the script does reaches the included-file list or the error
   * log, and output that has reached the client is never taken back.
   */
  lemma {:induction false} ExecKeeps(st: State, acts: seq<Action>)
    ensures Exec(st, acts).included == st.included
    ensures Exec(st, acts).log == st.log
    ensures Extends(st.out, Exec(st, acts).out)
    decreases |acts|
  {
    WriteExtends(st.out, []);
    if acts != [] {
      var next := Step(st, acts[0]);
      EmitExtends(st.out, acts[0]);
      ExecKeeps(next, acts[1..]);
      ExtendsTransitive(st.out, next.out, Exec(next, acts[1..]).out);
    }
  }

  /** The step assigns into the superglobal g. */
  predicate Touches(a: Action, g: Superglobal) {
    a.Assign? && a.global == g
  }

  /** A script that never assigns into $_SESSION (or $_COOKIE) leaves it as it was. */
  lemma {:induction false} ExecKeepsUntouched(st: State, acts: seq<Action>)
    ensures (forall i :: 0 <= i < |acts| ==> !Touches(acts[i], Session)) ==>
      Exec(st, acts).vars.session == st.vars.session
    ensures (forall i :: 0 <= i < |acts| ==> !Touches(acts[i], Cookie)) ==>
      Exec(st, acts).vars.cookie == st.vars.cookie
    decreases |acts|
  {
    if acts != [] {
      var next := Step(st, acts[0]);
      assert !Touches(acts[0], Session) ==> next.vars.session == st.vars.session;
      assert !Touches(acts[0], Cookie) ==> next.vars.cookie == st.vars.cookie;
      ExecKeepsUntouched(next, acts[1..]);
      assert forall i :: 1 <= i < |acts| ==> acts[1..][i - 1] == acts[i];
    }
  }

  /** A step that opens, closes or cleans no buffer. */
  predicate Plain(a: Action) {
    a.Echo? || a.ResponseCode? || a.Assign?
  }

  /** The text a script's echo steps write, in order. */
  function Echoed(acts: seq<Action>): string {
    if acts == [] then []
    else (if acts[0].Echo? then acts[0].text else []) + Echoed(acts[1..])
  }

  /** The response code after the script's http_response_code calls. */
  function StatusAfter(status: int, acts: seq<Action>): int
    decreases |acts|
  {
    if acts == [] then status
    else StatusAfter(if acts[0].ResponseCode? && acts[0].code != 0 then acts[0].code else status, acts[1..])
  }

  lemma PlainEmit(c: Channel, a: Action)
    requires c.buffers != [] && !c.headersSent && Plain(a)
    ensures var r := Emit(c, a);
      && r.buffers == c.buffers[..|c.buffers| - 1] + [Top(c) + (if a.Echo? then a.text else [])]
      && r.body == c.body
      && !r.headersSent
      && r.status == (if a.ResponseCode? && a.code != 0 then a.code else c.status)
  {
    if !a.Echo? {
      assert Top(c) + [] == Top(c);
      assert c.buffers == c.buffers[..|c.buffers| - 1] + [Top(c)];
    }
  }

  /**
   * A script of plain steps run inside an open buffer leaves every text it
   * echoes at the end of that buffer, sends nothing and sets the status
   * its response-code calls ask for.
   */
  lemma {:induction false} ExecPlainBuffered(st: State, acts: seq<Action>)
    requires st.out.buffers != [] && !st.out.headersSent
    requires forall i :: 0 <= i < |acts| ==> Plain(acts[i])
    ensures var r := Exec(st, acts).out;
      && r.buffers == st.out.buffers[..|st.out.buffers| - 1] + [Top(st.out) + Echoed(acts)]
      && r.body == st.out.body
      && !r.headersSent
      && r.status == StatusAfter(st.out.status, acts)
    decreases |acts|
  {
    var c := st.out;
    if acts != [] {
      var next := Step(st, acts[0]);
      PlainEmit(c, acts[0]);
      assert next.out == Emit(c, acts[0]);
      assert forall i :: 0 <= i < |acts[1..]| ==> Plain(acts[1..][i]);
      ExecPlainBuffered(next, acts[1..]);
      var outer := c.buffers[..|c.buffers| - 1];
      var said := if acts[0].Echo? then acts[0].text else [];
      assert next.out.buffers == outer + [Top(c) + said];
      assert next.out.buffers[..|next.out.buffers| - 1] == outer;
      assert Top(next.out) == Top(c) + said;
      assert Echoed(acts) == said + Echoed(acts[1..]);
      assert Top(c) + Echoed(acts) == Top(next.out) + Echoed(acts[1..]);
    } else {
      assert Top(c) + Echoed(acts) == Top(c);
      assert c.buffers == c.buffers[..|c.buffers| - 1] + [Top(c)];
    }
  }

  // ---------------------------------------------------------------------
  // The handler, lines 34-143
  // ---------------------------------------------------------------------

  /** The state after the try block, and what it threw. */
  datatype Attempt = Attempt(state: State, thrown: Option<Throwable>)

  /** Lines 82-94 up to the include: server entries set, buffers prepared, the file included. */
  function Prepared(st: State, filePath: string, root: string): State {
    var server := st.vars.server["SCRIPT_FILENAME" := filePath]["PHP_SELF" := RemoveAll(root, filePath)];
    var cleaned := if st.out.buffers != [] then CleanBuffer(st.out) else st.out;
    State(StartBuffer(cleaned), st.vars.(server := server), st.included + [filePath], st.log)
  }

  /** Lines 97-100: ob_get_clean(), then echo what it returned unless false. */
  function Deliver(c: Channel): Channel {
    if c.buffers == [] then c else Write(EndCleanBuffer(c), Top(c))
  }

  /** The try block, lines 35-107. */
  function Dispatch(st: State, fs: FileSystem, script: Script): Attempt {
    var root := DocumentRoot(st.vars.server);
    var filePath := Target(fs, st.vars.server);
    if !Contained(fs, filePath, root) then
      Attempt(st.(out := Write(SetResponseCode(st.out, 404), NotFoundText)), None)
    else if Extension(filePath) == "php" then
      var ran := Exec(Prepared(st, filePath, root), script.actions);
      if script.throws.Some? then Attempt(ran, script.throws)
      else Attempt(ran.(out := Deliver(ran.out)), None)
    else
      Attempt(st.(out := Write(SetResponseCode(st.out, 404), NotPhpText)), None)
  }

  /** `getenv('APP_ENV') === 'development' || getenv('DEBUG') === '1'` */
  predicate DebugEnabled(env: map<string, string>) {
    ("APP_ENV" in env && env["APP_ENV"] == "development") || ("DEBUG" in env && env["DEBUG"] == "1")
  }

  /** The line passed to error_log, line 110. */
  function LogLine(e: Throwable): string {
    "FrankenPHP Worker Error: " + e.message + " in " + e.file + ":" + DecimalString(e.line)
  }

  /** The debug block of lines 118-122, one string per echo. */
  function DebugHeader(): string { "\n\nDEBUG INFO:\n" }
  function MessageLine(e: Throwable): string { "Error: " + e.message + "\n" }
  function FileLine(e: Throwable): string { "File: " + e.file + "\n" }
  function LineNumberLine(e: Throwable): string { "Line: " + DecimalString(e.line) + "\n" }
  function TraceBlock(e: Throwable): string { "Trace:\n" + e.trace }

  /** Everything the catch block echoes. */
  function ErrorBody(e: Throwable, debug: bool): string {
    if debug then ErrorText + DebugHeader() + MessageLine(e) + FileLine(e) + LineNumberLine(e) + TraceBlock(e)
    else ErrorText
  }

  /** The generic text alone is echoed exactly when debugging is off. */
  lemma ErrorBodyGenericIffNoDebug(e: Throwable, debug: bool)
    ensures ErrorBody(e, debug) == ErrorText <==> !debug
  {
    if debug {
      assert |ErrorBody(e, debug)| > |ErrorText|;
    }
  }

  /** The catch block, lines 108-123. */
  function Recover(st: State, e: Throwable, env: map<string, string>): State {
    State(
      Write(SetResponseCode(st.out, 500), ErrorBody(e, DebugEnabled(env))),
      st.vars, st.included, st.log + [LogLine(e)])
  }

  /** The superglobal resets of the finally block, lines 131-136. */
  function ResetGlobals(v: Globals): Globals {
    v.(get := map[], post := map[], request := map[], files := map[],
       session := if v.session.Some? then v.session else Some(map[]),
       cookie := if v.cookie.Some? then v.cookie else Some(map[]))
  }

  /** The finally block, lines 124-142 (the cycle collection is not modelled). */
  function Cleanup(st: State): State {
    st.(out := st.out.(buffers := []), vars := ResetGlobals(st.vars))
  }

  /** One invocation of the request handler. */
  function Handle(st: State, fs: FileSystem, env: map<string, string>, script: Script): (r: State)
    ensures r.vars.get == map[] && r.vars.post == map[] && r.vars.request == map[] && r.vars.files == map[]
    ensures r.vars.session.Some? && r.vars.cookie.Some?
    ensures r.out.buffers == []
  {
    var attempt := Dispatch(st, fs, script);
    var caught := if attempt.thrown.Some? then Recover(attempt.state, attempt.thrown.value, env) else attempt.state;
    Cleanup(caught)
  }
}

=== FILE: worker.dfy ===
/**
 * The request handler of worker.php (lines 34-143) as it runs: a PHP
 * runtime object whose fields are the response, the output-buffer stack and
 * the superglobals, and whose methods change them step by step as the
 * closure does. Each method is proved to do what the matching function of
 * module Runtime says.
 */
module Worker {
  import opened Wrappers
  import opened PhpStrings
  import opened Routing
  import Runtime

  class PhpRuntime {
    var status: int
    var headersSent: bool
    var body: string
    var buffers: seq<string>
    var server: Runtime.Vars
    var get: Runtime.Vars
    var post: Runtime.Vars
    var request: Runtime.Vars
    var files: Runtime.Vars
    var session: Option<Runtime.Vars>
    var cookie: Option<Runtime.Vars>
    var included: seq<string>
    var log: seq<string>

    function Channel(): Runtime.Channel
      reads this
    {
      Runtime.Channel(status, headersSent, body, buffers)
    }

    function Globals(): Runtime.Globals
      reads this
    {
      Runtime.Globals(server, get, post, request, files, session, cookie)
    }

    /** The runtime state as a value. */
    function Snapshot(): Runtime.State
      reads this
    {
      Runtime.State(Channel(), Globals(), included, log)
    }

    /** A fresh request: status 200, nothing sent, no buffer open, the request's superglobals. */
    constructor (vars: Runtime.Globals)
      ensures Snapshot() == Runtime.State(Runtime.Channel(200, false, "", []), vars, [], [])
    {
      status, headersSent, body, buffers := 200, false, "", [];
      server, get, post, request, files := vars.server, vars.get, vars.post, vars.request, vars.files;
      session, cookie := vars.session, vars.cookie;
      included, log := [], [];
    }

    /** ob_get_level() */
    method ObGetLevel() returns (level: nat)
      ensures level == |buffers|
    {
      level := |buffers|;
    }

    /** echo */
    method Echo(s: string)
      modifies this`headersSent, this`body, this`buffers
      ensures Channel() == Runtime.Write(old(Channel()), s)
      ensures Runtime.Pending(Channel()) == Runtime.Pending(old(Channel())) + s
    {
      Runtime.WriteExtendsPending(Channel(), s);
      if buffers == [] {
        body := body + s;
        headersSent := headersSent || s != [];
      } else {
        buffers := buffers[..|buffers| - 1] + [buffers[|buffers| - 1] + s];
      }
    }

    /** http_response_code($code) */
    method HttpResponseCode(code: int)
      modifies this`status
      ensures Channel() == Runtime.SetResponseCode(old(Channel()), code)
    {
      if !headersSent && code != 0 {
        status := code;
      }
    }

    /** ob_start() */
    method ObStart()
      modifies this`buffers
      ensures Channel() == Runtime.StartBuffer(old(Channel()))
    {
      buffers := buffers + [""];
    }

    /** ob_clean(): false when no buffer is open. */
    method ObClean() returns (ok: bool)
      modifies this`buffers
      ensures ok == (old(buffers) != [])
      ensures Channel() == Runtime.CleanBuffer(old(Channel()))
    {
      ok := buffers != [];
      if ok {
        buffers := buffers[..|buffers| - 1] + [""];
      }
    }

    /** ob_end_clean(): false when no buffer is open. */
    method ObEndClean() returns (ok: bool)
      modifies this`buffers
      ensures ok == (old(buffers) != [])
      ensures Channel() == Runtime.EndCleanBuffer(old(Channel()))
    {
      ok := buffers != [];
      if ok {
        buffers := buffers[..|buffers| - 1];
      }
    }

    /** ob_end_flush(): false when no buffer is open. */
    method ObEndFlush() returns (ok: bool)
      modifies this`headersSent, this`body, this`buffers
      ensures ok == (old(buffers) != [])
      ensures Channel() == Runtime.EndFlushBuffer(old(Channel()))
      ensures Runtime.Pending(Channel()) == Runtime.Pending(old(Channel()))
    {
      Runtime.EndFlushKeepsPending(Channel());
      ok := buffers != [];
      if ok {
        var contents := buffers[|buffers| - 1];
        buffers := buffers[..|buffers| - 1];
        Echo(contents);
      }
    }

    /** ob_get_clean(): the innermost buffer's contents, and the buffer closed; None (false) when none is open. */
    method ObGetClean() returns (contents: Option<string>)
      modifies this`buffers
      ensures old(buffers) == [] ==> contents == None
      ensures old(buffers) != [] ==> contents == Some(Runtime.Top(old(Channel())))
      ensures Channel() == Runtime.EndCleanBuffer(old(Channel()))
    {
      if buffers == [] {
        return None;
      }
      contents := Some(buffers[|buffers| - 1]);
      buffers := buffers[..|buffers| - 1];
    }

    /** `$_X[key] = value` */
    method Assign(g: Runtime.Superglobal, key: string, value: string)
      modifies this`server, this`get, this`post, this`request, this`files, this`session, this`cookie
      ensures Globals() == Runtime.AssignVar(old(Globals()), g, key, value)
    {
      match g
      case Get => get := get[key := value];
      case Post => post := post[key := value];
      case Request => request := request[key := value];
      case Files => files := files[key := value];
      case Server => server := server[key := value];
      case Session =>
        session := Some((if session.Some? then session.value else map[])[key := value]);
      case Cookie =>
        cookie := Some((if cookie.Some? then cookie.value else map[])[key := value]);
    }

    /** `include $filePath`: the script's steps one by one, then its return or throw. */
    method Include(filePath: string, script: Runtime.Script) returns (thrown: Option<Runtime.Throwable>)
      modifies this
      ensures thrown == script.throws
      ensures Snapshot() == Runtime.Exec(old(Snapshot()).(included := old(included) + [filePath]), script.actions)
    {
      included := included + [filePath];
      var i := 0;
      while i < |script.actions|
        invariant 0 <= i <= |script.actions|
        invariant Runtime.Exec(Snapshot(), script.actions[i..])
          == Runtime.Exec(old(Snapshot()).(included := old(included) + [filePath]), script.actions)
      {
        var a := script.actions[i];
        assert script.actions[i..] == [a] + script.actions[i + 1..];
        match a {
          case Echo(t) => Echo(t);
          case ObStart => ObStart();
          case ObClean => var ok := ObClean();
          case ObEndClean => var ok := ObEndClean();
          case ObEndFlush => var ok := ObEndFlush();
          case ResponseCode(code) => HttpResponseCode(code);
          case Assign(g, k, v) => Assign(g, k, v);
        }
        i := i + 1;
      }
      thrown := script.throws;
    }

    /** Lines 37-67: the document root and the file the request resolves to. */
    method Route(fs: FileSystem) returns (filePath: string, documentRoot: string)
      ensures documentRoot == DocumentRoot(server)
      ensures filePath == Target(fs, server)
    {
      var requestUri := ServerValue(server, "REQUEST_URI", "/");
      var scriptName := ServerValue(server, "SCRIPT_NAME", "");
      documentRoot := ServerValue(server, "DOCUMENT_ROOT", DefaultDocumentRoot);

      var path := RequestPath(requestUri);
      if Truthy(scriptName) && Strpos(path, scriptName) == Some(0) {
        path := path[|scriptName|..];
      }

      filePath := documentRoot + path;
      if fs.IsDir(filePath) {
        var indexFile := RTrimSlashes(filePath) + "/index.php";
        if fs.Exists(indexFile) {
          filePath := indexFile;
        }
      }
      if !fs.Exists(filePath) || !fs.IsFile(filePath) {
        var indexFile := documentRoot + "/index.php";
        if fs.Exists(indexFile) {
          filePath := indexFile;
        }
      }
    }

    /** Lines 74-75 and 103-104: a 404 status and a refusal text. */
    method Refuse(text: string)
      modifies this`status, this`headersSent, this`body, this`buffers
      ensures Channel() == Runtime.Write(Runtime.SetResponseCode(old(Channel()), 404), text)
    {
      HttpResponseCode(404);
      Echo(text);
    }

    /** Lines 81-89: the script's server entries, a cleaned outer buffer and a fresh buffer. */
    method Prepare(filePath: string, documentRoot: string)
      modifies this`server, this`buffers
      ensures Channel() == Runtime.Prepared(old(Snapshot()), filePath, documentRoot).out
      ensures Globals() == Runtime.Prepared(old(Snapshot()), filePath, documentRoot).vars
    {
      server := server["SCRIPT_FILENAME" := filePath];
      server := server["PHP_SELF" := RemoveAll(documentRoot, filePath)];
      var level := ObGetLevel();
      if level > 0 {
        var ok := ObClean();
      }
      ObStart();
    }

    /** Lines 97-100: the script's buffer taken and echoed to the level below. */
    method Flush()
      modifies this`headersSent, this`body, this`buffers
      ensures Channel() == Runtime.Deliver(old(Channel()))
    {
      var output := ObGetClean();
      if output.Some? {
        Echo(output.value);
      }
    }

    /** The try block, lines 35-107: resolve, check, and run or refuse the target. */
    method Dispatch(fs: FileSystem, script: Runtime.Script) returns (thrown: Option<Runtime.Throwable>)
      modifies this
      ensures Runtime.Attempt(Snapshot(), thrown) == Runtime.Dispatch(old(Snapshot()), fs, script)
    {
      var filePath, documentRoot := Route(fs);
      var realFilePath := fs.RealPath(filePath);
      var realDocRoot := fs.RealPath(documentRoot);
      if !Canonicalised(realFilePath) || !Canonicalised(realDocRoot) || Strpos(realFilePath.value, realDocRoot.value) != Some(0) {
        Refuse(Runtime.NotFoundText);
        return None;
      }

      if Extension(filePath) == "php" {
        ghost var prepared := Runtime.Prepared(Snapshot(), filePath, documentRoot);
        Prepare(filePath, documentRoot);
        assert Snapshot().(included := included + [filePath]) == prepared;
        thrown := Include(filePath, script);
        if thrown.Some? {
          return;
        }
        Flush();
      } else {
        Refuse(Runtime.NotPhpText);
      }
      thrown := None;
    }

    /** The catch block, lines 108-123: log, 500, the generic text and, when debugging, the details. */
    method Recover(e: Runtime.Throwable, env: map<string, string>)
      modifies this`log, this`status, this`headersSent, this`body, this`buffers
      ensures Snapshot() == Runtime.Recover(old(Snapshot()), e, env)
    {
      log := log + [Runtime.LogLine(e)];
      HttpResponseCode(500);
      ghost var start := Channel();
      Echo(Runtime.ErrorText);
      if Runtime.DebugEnabled(env) {
        ghost var written := Runtime.ErrorText;
        Echo(Runtime.DebugHeader());
        Runtime.WriteJoin(start, written, Runtime.DebugHeader());
        written := written + Runtime.DebugHeader();
        Echo(Runtime.MessageLine(e));
        Runtime.WriteJoin(start, written, Runtime.MessageLine(e));
        written := written + Runtime.MessageLine(e);
        Echo(Runtime.FileLine(e));
        Runtime.WriteJoin(start, written, Runtime.FileLine(e));
        written := written + Runtime.FileLine(e);
        Echo(Runtime.LineNumberLine(e));
        Runtime.WriteJoin(start, written, Runtime.LineNumberLine(e));
        written := written + Runtime.LineNumberLine(e);
        Echo(Runtime.TraceBlock(e));
        Runtime.WriteJoin(start, written, Runtime.TraceBlock(e));
        written := written + Runtime.TraceBlock(e);
        assert Channel() == Runtime.Write(start, Runtime.ErrorBody(e, true));
      }
    }

    /** Lines 131-136: the request superglobals emptied; session and cookie kept, or set empty when unset. */
    method ResetGlobals()
      modifies this`get, this`post, this`request, this`files, this`session, this`cookie
      ensures Globals() == Runtime.ResetGlobals(old(Globals()))
    {
      get := map[];
      post := map[];
      request := map[];
      files := map[];
      session := if session.Some? then session else Some(map[]);
      cookie := if cookie.Some? then cookie else Some(map[]);
    }

    /** Lines 139-141: `while (ob_get_level()) ob_end_clean();` */
    method DrainBuffers()
      modifies this`buffers
      ensures Channel() == old(Channel()).(buffers := [])
    {
      var level := ObGetLevel();
      while level > 0
        invariant level == |buffers|
        decreases level
      {
        var ok := ObEndClean();
        level := ObGetLevel();
      }
    }

    /** The finally block, lines 124-142 (the cycle collection is not modelled). */
    method Cleanup()
      modifies this
      ensures Snapshot() == Runtime.Cleanup(old(Snapshot()))
    {
      ResetGlobals();
      DrainBuffers();
    }

    /** One invocation of the request handler. */
    method HandleRequest(fs: FileSystem, env: map<string, string>, script: Runtime.Script)
      modifies this
      ensures Snapshot() == Runtime.Handle(old(Snapshot()), fs, env, script)
      ensures get == map[] && post == map[] && request == map[] && files == map[] && buffers == []
    {
      var thrown := Dispatch(fs, script);
      if thrown.Some? {
        Recover(thrown.value, env);
      }
      Cleanup();
    }
  }
}

=== FILE: wrappers.dfy ===
/** An optional value: PHP's `null`/`false` results and unset variables. */
module Wrappers {

  datatype Option<+T> = None | Some(value: T)
}
